=== FILE: README.md ===
# VRED-Networking relay server, modelled in Dafny

The relay in `Server.py` lets several clients of a 3D scene stay in sync. It rebroadcasts
sync packs (`pos`, `rot`, `scale`, `state`) and remote-procedure calls (`rpc`) from one
client to the others. It answers `ping` with `pong`. It answers a newcomer's `hey` with
`ho` plus the last known state of every synchronised object. It serves a TCP connection
list and a UDP peer map, and a one-second timer drops UDP peers that have gone quiet for
longer than `UDP_TIMEOUT`.

This project models that engine as pure state transitions over immutable values:

- `common.dfy` (module `Common`): `Option`, `Result`, and a `Distinct` predicate on sequences.
- `wire.dfy` (module `Wire`): bytes, the decoded MessagePack value tree `Value`, and `Codec`.
  `Value` covers nil, booleans, integers, floats, strings, binaries, arrays, maps and
  extension values (type code and raw data; a timestamp is the extension with code -1).
  `Codec` is a pair of total functions standing for `msgpack.packb` and `msgpack.unpackb`,
  which stay uninterpreted.
- `state_cache.dfy` (module `StateCache`): the `last_state` cache, the `save_state` fold,
  and the `("ho", last_state)` snapshot. Each bucket keeps its net ids in insertion order,
  as a Python dictionary does, so the snapshot is a definite ordered map.
- `router.dfy` (module `Router`): `parse`. It decodes, classifies by `message[0]`, builds
  the answer, and updates the cache for sync packs.
- `server.dfy` (module `Server`): the relay state `(tcp_connections, udp_connections,
  last_state)`, `tcp_connect`, `close_tcp`, `tcp_read`, `udp_read` with their recipient
  rule, and `check_udp`.

`KEEP_STATE` and `UDP_TIMEOUT` are fields of a `Config` (defaults `true` and `10`). Time is
an integer tick count supplied by the caller.

## Model

| member | source | states |
|---|---|---|
| StateCache.KindOf | Server.py:113 | the four sync tags map to their kinds and nothing else does; exact inverse of the kind names |
| StateCache.InitialCacheEmpty | Server.py:157 | the cache starts with the four kinds `pos`, `rot`, `scale`, `state`, each empty |
| StateCache.Put | Server.py:130 | storing a slot sets exactly that id; an id already held keeps its place in the order, a new id is appended last; the bucket stays well formed |
| StateCache.Offer | Server.py:127-130 | one pack item is stored iff its id is new or the stored seq is strictly smaller; an equal or lower seq leaves the bucket identical; other ids untouched |
| StateCache.SaveState | Server.py:122-130 | with `KEEP_STATE` off the cache is unchanged; only the bucket of the message's kind can change |
| StateCache.SaveAllKeepsValid | Server.py:126-130 | folding a pack keeps every stored id listed exactly once in the bucket's order |
| StateCache.SaveAllKeepsOrder | Server.py:126-130 | the fold only appends: ids held before keep their places in order, and every id after them was not held before and is named by the pack |
| StateCache.SaveStateKeepsValid | Server.py:122-130 | a save keeps the whole cache well formed |
| StateCache.SaveAllFrame | Server.py:126-130 | ids absent from the pack are neither added, removed nor changed |
| StateCache.SaveAllMonotone | Server.py:129 | a stored sequence number never decreases |
| StateCache.SaveAllCovers | Server.py:126-130 | after the save every id of the pack is stored with at least its incoming seq |
| StateCache.KeptCandidate | Server.py:126-130 | order-free description of the fold: the id is stored iff there was a held slot or an incoming one, and it holds the first candidate (held slot, then pack order) with the maximal seq, at the returned index |
| StateCache.ArrivalOrderIrrelevant | Server.py:129-130 | two updates of one id with different seqs leave the same slot whichever arrives first |
| StateCache.GreaterSeqWins | Server.py:129-130 | when at least one of two updates beats the held slot, the slot left is the update with the larger seq |
| StateCache.SnapshotShowsCache | Server.py:107 | the `ho` snapshot shows every kind under its name and, under each net id, exactly the cached `(seq, payload)`, and nothing for uncached ids |
| Router.PackList | Server.py:126 | what `for pack in message[1]` walks: the elements of an array, the characters of a string, the byte values of a binary, the keys of a map, the code and data of an extension value; nothing is iterable for a missing or scalar `message[1]`, and it has no items exactly for an empty array, string, binary or map |
| Router.ReadablePrefix | Server.py:126-128 | the items `save_state` reads before an unreadable one: the longest prefix of the pack list made of `(id, seq, payload)` triples, stopping exactly at the first item that is not one |
| Router.ParseHey | Server.py:106-107 | `hey` is answered to the sender only, with `("ho", snapshot of the current cache)`; cache unchanged |
| Router.ParsePing | Server.py:110-112 | `ping` is answered to the sender only with the same array, element 0 replaced by `"pong"` and every later element kept; cache unchanged |
| Router.ParsePassThrough | Server.py:108-115 | `rpc` and sync messages are distributed as the input bytes unchanged; `rpc` always succeeds and never touches the cache |
| Router.ParseSync | Server.py:113-115 | a well-formed sync pack is distributed verbatim and folded into its kind's bucket, or the cache is left alone when `KEEP_STATE` is off |
| Router.ParseFailsIff | Server.py:103-117 | `parse` raises exactly for undecodable input, no first element, a tag outside the seven, or an unreadable pack while state is kept |
| Router.ParseCacheFrame | Server.py:106-130 | only a sync message with a pack list under `KEEP_STATE` can change the cache, and then exactly by saving the readable prefix of its items; every failure other than an unreadable pack leaves the cache unchanged |
| Router.ParseMalformedKeepsPrefix | Server.py:113-115 | a sync pack with an unreadable item fails after its readable prefix has been saved: the resulting cache is the prefix's, not the old one |
| Router.PartialPackStored | Server.py:126-130 | the pack `["pos", [["a", 1, nil], 5]]` is rejected yet leaves `a` at seq 1 in the `pos` bucket |
| Router.ParseUnknownTag | Server.py:116-117 | an unknown tag raises the unknown-type error and the cache is unchanged |
| Router.EmptyPackListRelayed | Server.py:113-126 | a sync message whose pack list is an empty array, string, binary or map is distributed verbatim and leaves the cache unchanged, whether or not state is kept |
| Router.ScalarPackListRejected | Server.py:126-128 | with state kept, a non-empty string, binary or extension value as the pack list is rejected as malformed with nothing saved, since its first item cannot be indexed as a triple |
| Router.ParseExtension | Server.py:105-117 | an extension value's first element is its integer code, so it is rejected as an unknown type with that code as the tag, and the cache is unchanged |
| Server.RemoveFirst | Server.py:54 | `list.remove` drops one occurrence of the client and keeps the rest (as a multiset) |
| Server.RemoveFirstAt | Server.py:54 | `list.remove` takes out the first occurrence and keeps the clients before and after it in order |
| Server.TcpConnect | Server.py:60 | the accepted client is appended last and every client already listed keeps its place; UDP peers and cache untouched |
| Server.CloseTcp | Server.py:52-54 | the client leaves the list (entirely, when listed once); every other client's membership is unchanged |
| Server.ConnectThenClose | Server.py:52-60 | connecting a fresh client then closing it restores the relay exactly |
| Server.Others | Server.py:45-47 | the broadcast targets are exactly the listed members other than the sender, each as many times as it is listed, and the sender never |
| Server.FanOut | Server.py:44-49 | the write loop emits one write per recipient in list order (the same writes `tcp_read` is modelled with), never to the sender when distributing, and only to the sender otherwise |
| Server.CheckUdp | Server.py:133-139 | the sweep keeps exactly the peers with `now - t <= UDP_TIMEOUT`, with unchanged timestamps, and nothing else changes |
| Server.TcpReadFanOut | Server.py:44-49 | a distributed TCP answer reaches every other connected client and never the sender, with no write repeated when each client is listed once; an undistributed one reaches the sender alone; every write carries the answer's bytes |
| Server.TcpReadDropsBadMessage | Server.py:37-42 | a message `parse` rejects is dropped: no writes and the connection list unchanged; the cache is what `parse` left, the old one unless a pack failed part-way |
| Server.TcpReadKeepsMembers | Server.py:35-49 | a read with data never changes the connection list or the UDP peers |
| Server.UdpReadFanOut | Server.py:73-89 | the sender is stamped with `now` before parsing, even when the message is rejected; other peers keep their timestamps; a rejected message sends nothing; every datagram sent carries the answer's bytes; a distributed answer goes to every other peer, an undistributed one to the sender only |
| Server.SweepThenBroadcast | Server.py:84-87 | after a sweep, a peer older than the timeout gets no broadcast and a peer within it does |
| Server.SweepIdempotent | Server.py:133-139 | a second sweep at the same instant removes nothing |
| Server.MembershipKeepsValid | Server.py:52-60 | connect of a fresh client and close keep each client listed at most once |
| Server.TcpReadKeepsValid | Server.py:27-49 | `tcp_read` keeps each client listed at most once and the cache well formed |
| Server.UdpReadKeepsValid | Server.py:68-89 | `udp_read` keeps the relay well formed |
| Server.ParseKeepsValid | Server.py:94-130 | parsing keeps the cache well formed, a partial sync save included |
| Server.PosPackStored | Server.py:75-89 | a UDP `pos` pack for `v1P` at seq 121 into the initial relay leaves exactly that slot in `pos` and the other kinds empty |
| Server.HandshakeScenario | Server.py:106-107 | after that pack, a `hey` from a new TCP client yields a `ho` to that client alone with `pos` holding just that slot and the other kinds empty |

## Left out

- Sockets, the pyuv loop, `accept`, `nodelay`, `start_read`/`start_recv`, timer scheduling and startup (Server.py:57-63, 159-181): I/O wiring with no contract beyond the membership updates above.
- `signal_cb` shutdown (Server.py:142-150): resource teardown only.
- Logging calls: observational only.
- MessagePack encoding: `packb`/`unpackb` belong to a foreign library and are the two uninterpreted functions of `Codec`. Floats are modelled as reals.
- `timeit.default_timer` returns float seconds; the model takes integer ticks as a parameter, and `UDP_TIMEOUT` is counted in the same ticks.
- UDP broadcast order: Python walks the peer dictionary in insertion order. The model gives the set of datagrams sent, because delivery order across peers carries no guarantee.
- Map-shaped messages: `message[0]` on a decoded map is treated as failing. With msgpack 1.0 or later, `unpackb` itself rejects a map with an integer key (its default `strict_map_key` admits only `str` and `bytes` keys), and on any map it does return, `message[0]` is a `KeyError`. Older msgpack versions could decode integer keys.
- Malformed sync packs: with `KEEP_STATE` on, the items of the pack list are saved in order until the first one that is not a `(str id, int seq, payload)` triple, and then the message fails with the saved prefix left in the cache, as in the source. A pack list that is not an array fails before any item is saved. The pack list is iterated as Python iterates it, so an empty array, string, binary or map saves nothing and the message is relayed, while a non-empty string, binary or extension value fails on its first item. Python accepts a few items the model counts as unreadable: non-string hashable ids, non-integer seqs (booleans included, although Python's `bool` compares as an integer), a two-element item whose seq is stale (it reads `pack[2]` only when storing), and a string or binary map key of three or more elements, which a map pack list yields as an item. With `KEEP_STATE` off, the pack list is never read, as in the source.
- Server.CloseTcp: closing a client that is not listed leaves the list unchanged, whereas Python's `list.remove` raises `ValueError` inside the callback. The source only calls it for listed clients.
- The manual client scripts under `debug/` are not part of this model. One of them sends a boolean state pack under the `rot` tag; the model keeps `state` as its own kind, as `Server.py` does.
- The `pong` reply is not a fixed `("pong", seq)` pair. The code rewrites element 0 of whatever array arrived and keeps every later element, and `Router.ParsePing` states exactly that.

=== FILE: common.dfy ===
/** Failure-carrying wrappers and a sequence predicate shared by the relay model. */
module Common {

  /** A value that may be missing: a dictionary lookup, a decode that failed. */
  datatype Option<+T> = None | Some(value: T)

  /** The outcome of an operation that the server may abandon with an exception. */
  datatype Result<+T, +E> = Ok(value: T) | Err(error: E)

  /** No element occurs twice in `s`. */
  ghost predicate Distinct<T>(s: seq<T>)
  {
    forall i, j :: 0 <= i < j < |s| ==> s[i] != s[j]
  }
}

=== FILE: router.dfy ===
/**
 * The message router (`parse` in Server.py): decode a buffer, dispatch on its first
 * element, build the answer, and record sync packs in the state cache.
 */
module Router {
  import opened Common
  import opened Wire
  import opened StateCache

  /**
   * The decoded message, classified by `message[0]`. Only a non-empty array can carry one
   * of the known tags; for a string or a binary the first element is one character or one
   * byte, which is never a tag, and an extension value reads as its pair `(code, data)`,
   * whose first element is the integer code. Any other value makes `message[0]` raise.
   */
  datatype Message =
    | Hey
    | Rpc
    | Ping(rest: seq<Value>)
    | Sync(kind: Kind, body: Option<Value>)
    | Unknown(tag: Value)
    | Headless

  function Classify(v: Value): Message
  {
    match v
    case Arr(items) =>
      if |items| == 0 then Headless
      else
        var tag := items[0];
        if tag == Str("hey") then Hey
        else if tag == Str("rpc") then Rpc
        else if tag == Str("ping") then Ping(items[1..])
        else if tag.Str? && KindOf(tag.s).Some? then
          Sync(KindOf(tag.s).value, if |items| > 1 then Some(items[1]) else None)
        else Unknown(tag)
    case Str(s) => if |s| == 0 then Headless else Unknown(Str([s[0]]))
    case Bin(bs) => if |bs| == 0 then Headless else Unknown(Int(bs[0] as int))
    case Ext(code, _) => Unknown(Int(code))
    case _ => Headless
  }

  /** `v` is an array whose first element is the string `tag`. */
  predicate Tagged(v: Value, tag: string)
  {
    v.Arr? && |v.items| > 0 && v.items[0] == Str(tag)
  }

  /** The tags `parse` accepts. */
  predicate KnownTag(tag: string)
  {
    tag == "hey" || tag == "rpc" || tag == "ping" || KindOf(tag).Some?
  }

  /** One pack item `(net_id, seq, payload)`, when it has that shape. */
  function PackEntry(p: Value): Option<Entry>
  {
    if p.Arr? && |p.items| >= 3 && p.items[0].Str? && p.items[1].Int?
    then Some(Entry(p.items[0].s, p.items[1].i, p.items[2]))
    else None
  }

  /**
   * The items `save_state` gets through before it meets one it cannot read: the longest
   * prefix of the pack list whose every item is an `(id, seq, payload)` triple.
   */
  function ReadablePrefix(packs: seq<Value>): (es: seq<Entry>)
    ensures |es| <= |packs|
    ensures forall i :: 0 <= i < |es| ==> PackEntry(packs[i]) == Some(es[i])
    ensures |es| < |packs| ==> PackEntry(packs[|es|]).None?
    decreases |packs|
  {
    if |packs| == 0 then []
    else
      match PackEntry(packs[0])
      case None => []
      case Some(e) => [e] + ReadablePrefix(packs[1..])
  }

  /**
   * The items `save_state` walks when it iterates `message[1]`: the elements of an array,
   * the one-character strings of a string, the byte values of a binary, the keys of a map,
   * and the code and data of an extension value. A missing or scalar `message[1]` cannot be
   * iterated at all.
   */
  function PackList(body: Option<Value>): (items: Option<seq<Value>>)
    ensures body.Some? && body.value.Arr? ==> items == Some(body.value.items)
    ensures items.Some? <==> body.Some? && (body.value.Arr? || body.value.Str? || body.value.Bin?
                                          || body.value.Dict? || body.value.Ext?)
    ensures items.Some? && |items.value| == 0 <==>
      body.Some? && (body.value == Arr([]) || body.value == Str([]) || body.value == Bin([])
                     || body.value == Dict([]))
  {
    match body
    case None => None
    case Some(v) =>
      match v
      case Arr(items) => Some(items)
      case Str(s) => Some(seq(|s|, i requires 0 <= i < |s| => Str([s[i]])))
      case Bin(bs) => Some(seq(|bs|, i requires 0 <= i < |bs| => Int(bs[i] as int)))
      case Dict(pairs) => Some(seq(|pairs|, i requires 0 <= i < |pairs| => pairs[i].0))
      case Ext(code, bs) => Some([Int(code), Bin(bs)])
      case _ => None
  }

  /** `message[1]` of a sync message read in full as a list of pack items. */
  function Entries(body: Option<Value>): Option<seq<Entry>>
  {
    if PackList(body).Some? && |ReadablePrefix(PackList(body).value)| == |PackList(body).value|
    then Some(ReadablePrefix(PackList(body).value))
    else None
  }

  /** What `parse` hands back: whether to broadcast, and the bytes to send. */
  datatype Answer = Answer(distribute: bool, data: Bytes)

  /** Why `parse` raised; both read handlers log it and drop the message. */
  datatype ParseError =
    | Undecodable
    | NoType
    | UnknownType(tag: Value)
    | MalformedPack

  /** The answer, or the error, together with the cache as `parse` leaves it. */
  datatype Parsed = Parsed(answer: Result<Answer, ParseError>, cache: Cache)

  /** The handshake reply: the tag `ho` followed by the snapshot of the whole cache. */
  function HoMessage(c: Cache): Value
  {
    Arr([Str("ho"), Snapshot(c)])
  }

  /**
   * `parse(data)` against the cache `cache`, with `KEEP_STATE` as `keepState`. With state
   * kept, a sync message's items are saved one by one until an unreadable one raises, so a
   * rejected pack can still leave its readable prefix in the cache.
   */
  function Parse(codec: Codec, keepState: bool, cache: Cache, data: Bytes): Parsed
  {
    match codec.unpack(data)
    case None => Parsed(Err(Undecodable), cache)
    case Some(v) =>
      match Classify(v)
      case Headless => Parsed(Err(NoType), cache)
      case Hey => Parsed(Ok(Answer(false, codec.pack(HoMessage(cache)))), cache)
      case Rpc => Parsed(Ok(Answer(true, data)), cache)
      case Ping(rest) => Parsed(Ok(Answer(false, codec.pack(Arr([Str("pong")] + rest)))), cache)
      case Sync(k, body) =>
        if !keepState then Parsed(Ok(Answer(true, data)), cache)
        else if PackList(body).None? then Parsed(Err(MalformedPack), cache)
        else
          var packs := PackList(body).value;
          var es := ReadablePrefix(packs);
          var saved := SaveState(keepState, cache, k, es);
          if |es| == |packs| then Parsed(Ok(Answer(true, data)), saved)
          else Parsed(Err(MalformedPack), saved)
      case Unknown(tag) => Parsed(Err(UnknownType(tag)), cache)
  }

  // ----- the dispatch table, stated against the decoded message -----

  /** The message is a well-formed sync pack of kind `k` with items `es`. */
  predicate IsSyncPack(v: Value, k: Kind, es: seq<Entry>)
  {
    Tagged(v, KindName(k)) && |v.items| > 1 && Entries(Some(v.items[1])) == Some(es)
  }

  /**
   * `hey` is answered to the sender alone with `("ho", snapshot)` of the cache as it is,
   * and the cache is not touched.
   */
  lemma ParseHey(codec: Codec, keepState: bool, cache: Cache, data: Bytes)
    requires codec.unpack(data).Some? && Tagged(codec.unpack(data).value, "hey")
    ensures Parse(codec, keepState, cache, data)
      == Parsed(Ok(Answer(false, codec.pack(Arr([Str("ho"), Snapshot(cache)])))), cache)
  {
  }

  /**
   * `ping` is answered to the sender alone with the same message re-encoded, its first
   * element now `"pong"` and every later element in place; the cache is not touched.
   */
  lemma ParsePing(codec: Codec, keepState: bool, cache: Cache, data: Bytes)
    requires codec.unpack(data).Some? && Tagged(codec.unpack(data).value, "ping")
    ensures var p := Parse(codec, keepState, cache, data);
      var items := codec.unpack(data).value.items;
      && p.cache == cache
      && p.answer.Ok? && !p.answer.value.distribute
      && exists reply: seq<Value> ::
           && p.answer.value.data == codec.pack(Arr(reply))
           && |reply| == |items|
           && reply[0] == Str("pong")
           && reply[1..] == items[1..]
  {
    var items := codec.unpack(data).value.items;
    var reply := [Str("pong")] + items[1..];
    assert reply[1..] == items[1..];
  }

  /**
   * `rpc` and the four sync kinds are relayed as the very bytes that came in, to everyone
   * else; `rpc` never fails and never touches the cache.
   */
  lemma ParsePassThrough(codec: Codec, keepState: bool, cache: Cache, data: Bytes, tag: string)
    requires tag == "rpc" || KindOf(tag).Some?
    requires codec.unpack(data).Some? && Tagged(codec.unpack(data).value, tag)
    ensures var p := Parse(codec, keepState, cache, data);
      && (p.answer.Ok? ==> p.answer.value == Answer(true, data))
      && (tag == "rpc" ==> p.answer.Ok? && p.cache == cache)
  {
  }

  /**
   * A well-formed sync pack is relayed verbatim and folded into its kind's bucket when
   * state retention is on; with retention off it is relayed and the cache stays as it was.
   */
  lemma ParseSync(codec: Codec, keepState: bool, cache: Cache, data: Bytes, k: Kind, es: seq<Entry>)
    requires codec.unpack(data).Some? && IsSyncPack(codec.unpack(data).value, k, es)
    ensures Parse(codec, keepState, cache, data)
      == Parsed(Ok(Answer(true, data)), SaveState(keepState, cache, k, es))
  {
    var v := codec.unpack(data).value;
    assert KindOf(KindName(k)) == Some(k);
    assert Classify(v) == Sync(k, Some(v.items[1]));
  }

  /**
   * `parse` fails exactly when the buffer does not decode, has no first element, carries a
   * tag outside the seven known ones, or is a sync message whose pack list cannot be read
   * while state retention is on.
   */
  lemma ParseFailsIff(codec: Codec, keepState: bool, cache: Cache, data: Bytes)
    ensures var p := Parse(codec, keepState, cache, data);
      p.answer.Err? <==>
        || codec.unpack(data).None?
        || !(codec.unpack(data).value.Arr? && |codec.unpack(data).value.items| > 0
             && codec.unpack(data).value.items[0].Str?
             && KnownTag(codec.unpack(data).value.items[0].s))
        || (keepState && KindOf(codec.unpack(data).value.items[0].s).Some?
            && Entries(if |codec.unpack(data).value.items| > 1
                       then Some(codec.unpack(data).value.items[1]) else None).None?)
  {
  }

  /** A sync message of kind `k` with a pack list, and the items of it that can be read. */
  function SyncPrefix(v: Value): Option<(Kind, seq<Entry>)>
  {
    match Classify(v)
    case Sync(k, body) =>
      if PackList(body).Some? then Some((k, ReadablePrefix(PackList(body).value))) else None
    case _ => None
  }

  /**
   * Only a sync message with a pack list, under state retention, can change the cache, and
   * then exactly by saving the readable prefix of its items. Every other failure leaves the
   * cache as it was.
   */
  lemma ParseCacheFrame(codec: Codec, keepState: bool, cache: Cache, data: Bytes)
    ensures var p := Parse(codec, keepState, cache, data);
      && (p.answer.Err? && p.answer.error != MalformedPack ==> p.cache == cache)
      && (p.cache != cache ==>
            && keepState
            && codec.unpack(data).Some?
            && SyncPrefix(codec.unpack(data).value).Some?
            && var (k, es) := SyncPrefix(codec.unpack(data).value).value;
               p.cache == SaveState(true, cache, k, es))
  {
  }

  /**
   * A sync pack with an unreadable item is rejected after the items before it have been
   * saved: the cache is the one the readable prefix produces, not the one before the call.
   */
  lemma ParseMalformedKeepsPrefix(codec: Codec, cache: Cache, data: Bytes, k: Kind, packs: seq<Value>)
    requires codec.unpack(data).Some?
    requires var v := codec.unpack(data).value;
      Tagged(v, KindName(k)) && |v.items| > 1 && v.items[1] == Arr(packs)
    requires |ReadablePrefix(packs)| < |packs|
    ensures Parse(codec, true, cache, data)
      == Parsed(Err(MalformedPack), SaveState(true, cache, k, ReadablePrefix(packs)))
  {
    assert KindOf(KindName(k)) == Some(k);
  }

  /**
   * The pack `["pos", [["a", 1, nil], 5]]` stores `a` and then fails on `5`: the message is
   * dropped, yet a later handshake reports `a` at sequence 1.
   */
  lemma PartialPackStored(codec: Codec, data: Bytes)
    requires codec.unpack(data) == Some(Arr([Str("pos"), Arr([Arr([Str("a"), Int(1), Nil]), Int(5)])]))
    ensures var p := Parse(codec, true, InitialCache, data);
      && p.answer == Err(MalformedPack)
      && p.cache.pos.slots == map["a" := Slot(1, Nil)]
  {
    var packs := [Arr([Str("a"), Int(1), Nil]), Int(5)];
    assert ReadablePrefix(packs[1..]) == [];
    assert ReadablePrefix(packs) == [Entry("a", 1, Nil)];
    assert SaveAll(EmptyBucket, [Entry("a", 1, Nil)]) == Offer(EmptyBucket, Entry("a", 1, Nil));
  }

  /** A message with a tag outside the known seven raises without touching the cache. */
  lemma ParseUnknownTag(codec: Codec, keepState: bool, cache: Cache, data: Bytes, tag: string)
    requires !KnownTag(tag)
    requires codec.unpack(data).Some? && Tagged(codec.unpack(data).value, tag)
    ensures Parse(codec, keepState, cache, data) == Parsed(Err(UnknownType(Str(tag))), cache)
  {
  }

  /**
   * A sync message whose pack list has no items to iterate (an empty array, string, binary
   * or map) is relayed, and the cache stays as it was whether or not state is kept.
   */
  lemma EmptyPackListRelayed(codec: Codec, keepState: bool, cache: Cache, data: Bytes, k: Kind)
    requires codec.unpack(data).Some?
    requires var v := codec.unpack(data).value;
      && Tagged(v, KindName(k)) && |v.items| > 1
      && v.items[1] in {Arr([]), Str([]), Bin([]), Dict([])}
    ensures Parse(codec, keepState, cache, data) == Parsed(Ok(Answer(true, data)), cache)
  {
    assert KindOf(KindName(k)) == Some(k);
  }

  /**
   * A non-empty string, binary or extension value in place of the pack list is iterated,
   * but its first item is a character, a byte or a code, which cannot be read as a pack
   * item: the message is rejected before anything is saved.
   */
  lemma ScalarPackListRejected(codec: Codec, cache: Cache, data: Bytes, k: Kind)
    requires codec.unpack(data).Some?
    requires var v := codec.unpack(data).value;
      && Tagged(v, KindName(k)) && |v.items| > 1
      && ((v.items[1].Str? && |v.items[1].s| > 0) || (v.items[1].Bin? && |v.items[1].data| > 0)
          || v.items[1].Ext?)
    ensures Parse(codec, true, cache, data) == Parsed(Err(MalformedPack), cache)
  {
    var body := codec.unpack(data).value.items[1];
    assert KindOf(KindName(k)) == Some(k);
    assert PackEntry(PackList(Some(body)).value[0]).None?;
  }

  /**
   * An extension value is indexed as its `(code, data)` pair, so its integer code is taken
   * for the tag and rejected as unknown; the cache is not touched.
   */
  lemma ParseExtension(codec: Codec, keepState: bool, cache: Cache, data: Bytes)
    requires codec.unpack(data).Some? && codec.unpack(data).value.Ext?
    ensures Parse(codec, keepState, cache, data)
      == Parsed(Err(UnknownType(Int(codec.unpack(data).value.code))), cache)
  {
  }
}

=== FILE: server.dfy ===
/**
 * The relay's session layer (Server.py): the TCP connection list, the UDP peer map, the
 * two read handlers with their recipient rule, and the periodic UDP liveness sweep. Every
 * callback is a function from the old relay state to the new one plus what it sends.
 */
module Server {
  import opened Common
  import opened Wire
  import opened StateCache
  import opened Router

  /** An accepted TCP client handle. */
  type Conn = nat

  /** A UDP peer's `(ip, port)`. */
  type Addr = (string, int)

  /** `KEEP_STATE` and `UDP_TIMEOUT`, the latter in the same ticks as the clock. */
  datatype Config = Config(keepState: bool, udpTimeout: int)

  const Defaults := Config(true, 10)

  /** The three registries: `tcp_connections`, `udp_connections`, `last_state`. */
  datatype Relay = Relay(tcp: seq<Conn>, udp: map<Addr, int>, cache: Cache)

  const InitialRelay := Relay([], map[], InitialCache)

  /** Each client is listed once and the cache is well formed. */
  ghost predicate ValidRelay(r: Relay)
  {
    Distinct(r.tcp) && ValidCache(r.cache)
  }

  datatype Write = Write(to: Conn, data: Bytes)
  datatype Send = Send(to: Addr, data: Bytes)

  /** A TCP callback's result: the new relay and the writes, in order. */
  datatype TcpStep = TcpStep(relay: Relay, writes: seq<Write>)

  /** A UDP callback's result: the new relay and the datagrams sent. */
  datatype UdpStep = UdpStep(relay: Relay, sends: set<Send>)

  // ----- membership -----

  /** `list.remove`: drop the first occurrence of `x`, if there is one. */
  function RemoveFirst(s: seq<Conn>, x: Conn): (r: seq<Conn>)
    ensures x !in s ==> r == s
    ensures x in s ==> |r| == |s| - 1
    ensures multiset(r) == multiset(s) - multiset{x}
    decreases |s|
  {
    if |s| == 0 then []
    else
      assert s == [s[0]] + s[1..];
      if s[0] == x then s[1..] else [s[0]] + RemoveFirst(s[1..], x)
  }

  /** `tcp_connect`: the accepted client joins the end of the connection list. */
  function TcpConnect(r: Relay, client: Conn): (r': Relay)
    ensures |r'.tcp| == |r.tcp| + 1
    ensures r'.tcp[..|r.tcp|] == r.tcp && r'.tcp[|r.tcp|] == client
    ensures r'.udp == r.udp && r'.cache == r.cache
  {
    r.(tcp := r.tcp + [client])
  }

  /** `close_tcp`: the client leaves the connection list. */
  function CloseTcp(r: Relay, client: Conn): (r': Relay)
    ensures Distinct(r.tcp) ==> client !in r'.tcp
    ensures forall c :: c != client ==> (c in r'.tcp <==> c in r.tcp)
    ensures r'.udp == r.udp && r'.cache == r.cache
  {
    RemoveFirstMembership(r.tcp, client);
    r.(tcp := RemoveFirst(r.tcp, client))
  }

  lemma RemoveFirstMembership(s: seq<Conn>, x: Conn)
    ensures Distinct(s) ==> x !in RemoveFirst(s, x)
    ensures forall c :: c != x ==> (c in RemoveFirst(s, x) <==> c in s)
  {
    var t := RemoveFirst(s, x);
    assert forall c :: c in t <==> c in multiset(t);
    assert forall c :: c in s <==> c in multiset(s);
    if Distinct(s) {
      DistinctOnce(s, x);
    }
  }

  lemma {:induction false} DistinctOnce(s: seq<Conn>, x: Conn)
    requires Distinct(s)
    ensures multiset(s)[x] <= 1
    decreases |s|
  {
    if |s| > 0 {
      assert s == [s[0]] + s[1..];
      DistinctOnce(s[1..], x);
      assert s[0] !in s[1..];
    }
  }

  /**
   * `list.remove` takes out the first occurrence and nothing else: the clients before it
   * and after it keep their order.
   */
  lemma {:induction false} RemoveFirstAt(s: seq<Conn>, x: Conn, i: int)
    requires 0 <= i < |s| && s[i] == x && x !in s[..i]
    ensures RemoveFirst(s, x) == s[..i] + s[i + 1..]
    decreases i
  {
    if i > 0 {
      assert s[0] in s[..i];
      assert x !in s[1..][..i - 1] by { assert s[1..][..i - 1] == s[..i][1..]; }
      RemoveFirstAt(s[1..], x, i - 1);
      assert s[..i] == [s[0]] + s[1..][..i - 1];
      assert s[i + 1..] == s[1..][i..];
    }
  }

  lemma {:induction false} RemoveFirstOfFresh(s: seq<Conn>, x: Conn)
    requires x !in s
    ensures RemoveFirst(s + [x], x) == s
    decreases |s|
  {
    if |s| > 0 {
      assert (s + [x])[1..] == s[1..] + [x];
      RemoveFirstOfFresh(s[1..], x);
    }
  }

  /** Connecting a fresh client and then closing it gives back the relay as it was. */
  lemma ConnectThenClose(r: Relay, client: Conn)
    requires client !in r.tcp
    ensures CloseTcp(TcpConnect(r, client), client) == r
  {
    RemoveFirstOfFresh(r.tcp, client);
  }

  // ----- the recipient rule -----

  /** The members of the broadcast loop that are not the sender, in list order. */
  function Others(members: seq<Conn>, sender: Conn): (r: seq<Conn>)
    ensures forall c :: c in r <==> c in members && c != sender
    ensures forall c :: multiset(r)[c] == if c == sender then 0 else multiset(members)[c]
    ensures |r| <= |members|
    decreases |members|
  {
    if |members| == 0 then []
    else
      assert members == [members[0]] + members[1..];
      (if members[0] != sender then [members[0]] else []) + Others(members[1..], sender)
  }

  /** A list without repeats gives broadcast targets without repeats. */
  lemma {:induction false} OthersDistinct(members: seq<Conn>, sender: Conn)
    requires Distinct(members)
    ensures Distinct(Others(members, sender))
    decreases |members|
  {
    if |members| > 0 {
      assert Distinct(members[1..]);
      OthersDistinct(members[1..], sender);
      if members[0] != sender {
        assert members[0] !in members[1..];
        DistinctCons(members[0], Others(members[1..], sender));
      }
    }
  }

  /** Who receives an answer on TCP: everyone else when it is distributed, else the sender. */
  function Recipients(members: seq<Conn>, sender: Conn, distribute: bool): seq<Conn>
  {
    if distribute then Others(members, sender) else [sender]
  }

  /** The broadcast loop of `tcp_read`, one write per recipient in list order. */
  method FanOut(members: seq<Conn>, sender: Conn, distribute: bool, data: Bytes)
    returns (writes: seq<Write>)
    ensures writes == Deliver(Recipients(members, sender, distribute), data)
    ensures distribute ==> forall w :: w in writes ==> w.to != sender
    ensures !distribute ==> writes == [Write(sender, data)]
  {
    if !distribute {
      return [Write(sender, data)];
    }
    writes := [];
    var i := 0;
    while i < |members|
      invariant 0 <= i <= |members|
      invariant writes == Deliver(Others(members[..i], sender), data)
    {
      var done := Others(members[..i], sender);
      OthersSplit(members[..i], members[i], sender);
      assert members[..i + 1] == members[..i] + [members[i]];
      if members[i] != sender {
        DeliverSnoc(done, members[i], data);
        writes := writes + [Write(members[i], data)];
      } else {
        assert done + [] == done;
      }
      i := i + 1;
    }
    assert members[..i] == members;
    DeliverAvoids(Others(members, sender), data, sender);
  }

  lemma DeliverSnoc(targets: seq<Conn>, x: Conn, data: Bytes)
    ensures Deliver(targets + [x], data) == Deliver(targets, data) + [Write(x, data)]
  {
  }

  /** No write goes to a connection that is not among the targets. */
  lemma DeliverAvoids(targets: seq<Conn>, data: Bytes, x: Conn)
    requires x !in targets
    ensures forall w :: w in Deliver(targets, data) ==> w.to != x
  {
    forall w | w in Deliver(targets, data)
      ensures w.to != x
    {
      var j :| 0 <= j < |targets| && Deliver(targets, data)[j] == w;
      assert targets[j] in targets;
    }
  }

  lemma {:induction false} OthersSplit(s: seq<Conn>, x: Conn, sender: Conn)
    ensures Others(s + [x], sender) == Others(s, sender) + (if x != sender then [x] else [])
    decreases |s|
  {
    if |s| > 0 {
      assert (s + [x])[1..] == s[1..] + [x];
      OthersSplit(s[1..], x, sender);
    } else {
      assert s + [x] == [x];
    }
  }

  /** One write of `data` to each target, in target order. */
  function Deliver(targets: seq<Conn>, data: Bytes): seq<Write>
  {
    seq(|targets|, i requires 0 <= i < |targets| => Write(targets[i], data))
  }

  // ----- the read handlers -----

  /**
   * `tcp_read`: no data means the peer closed, so the client is dropped; otherwise the
   * buffer is parsed and the answer written out, or the message dropped on error.
   */
  function TcpRead(cfg: Config, codec: Codec, r: Relay, client: Conn, data: Option<Bytes>): TcpStep
  {
    match data
    case None => TcpStep(CloseTcp(r, client), [])
    case Some(d) =>
      var p := Parse(codec, cfg.keepState, r.cache, d);
      var r' := r.(cache := p.cache);
      match p.answer
      case Err(_) => TcpStep(r', [])
      case Ok(a) => TcpStep(r', Deliver(Recipients(r.tcp, client, a.distribute), a.data))
  }

  /**
   * `udp_read`: the sender's last-seen time is refreshed first, then the datagram is parsed
   * and answered to every other known peer or to the sender alone.
   */
  function UdpRead(cfg: Config, codec: Codec, r: Relay, from: Addr, now: int, data: Option<Bytes>): UdpStep
  {
    match data
    case None => UdpStep(r, {})
    case Some(d) =>
      var peers := r.udp[from := now];
      var p := Parse(codec, cfg.keepState, r.cache, d);
      var r' := r.(udp := peers, cache := p.cache);
      match p.answer
      case Err(_) => UdpStep(r', {})
      case Ok(a) =>
        if a.distribute then UdpStep(r', set x | x in peers && x != from :: Send(x, a.data))
        else UdpStep(r', {Send(from, a.data)})
  }

  /** The peers a sweep at `now` keeps: those heard from at most `timeout` ticks ago. */
  function Sweep(peers: map<Addr, int>, now: int, timeout: int): map<Addr, int>
  {
    map a | a in peers && now - peers[a] <= timeout :: peers[a]
  }

  /**
   * `check_udp`: walk a snapshot of the peer map and delete every peer whose age exceeds
   * the timeout; the rest keep their timestamps.
   */
  method CheckUdp(cfg: Config, r: Relay, now: int) returns (r': Relay)
    ensures forall a :: a in r'.udp <==> a in r.udp && now - r.udp[a] <= cfg.udpTimeout
    ensures forall a :: a in r'.udp ==> r'.udp[a] == r.udp[a]
    ensures r'.udp == Sweep(r.udp, now, cfg.udpTimeout)
    ensures r'.tcp == r.tcp && r'.cache == r.cache
  {
    var peers := r.udp;
    var pending := r.udp.Keys;
    while pending != {}
      invariant pending <= r.udp.Keys
      invariant forall a :: a in peers <==> a in r.udp && (a in pending || now - r.udp[a] <= cfg.udpTimeout)
      invariant forall a :: a in peers ==> peers[a] == r.udp[a]
      decreases pending
    {
      var a :| a in pending;
      if now - r.udp[a] > cfg.udpTimeout {
        peers := peers - {a};
      }
      pending := pending - {a};
    }
    r' := r.(udp := peers);
  }

  // ----- properties of the handlers -----

  /**
   * A TCP answer that is distributed reaches every other listed client and never the
   * sender, with no write repeated while each client is listed once; one that is not
   * reaches the sender alone.
   */
  lemma TcpReadFanOut(cfg: Config, codec: Codec, r: Relay, client: Conn, d: Bytes)
    requires Parse(codec, cfg.keepState, r.cache, d).answer.Ok?
    ensures var a := Parse(codec, cfg.keepState, r.cache, d).answer.value;
      var ws := TcpRead(cfg, codec, r, client, Some(d)).writes;
      && (forall w :: w in ws ==> w.data == a.data)
      && (a.distribute ==> forall w :: w in ws ==> w.to in r.tcp && w.to != client)
      && (a.distribute ==> forall c :: c in r.tcp && c != client ==> Write(c, a.data) in ws)
      && (a.distribute && Distinct(r.tcp) ==> forall i, j :: 0 <= i < j < |ws| ==> ws[i] != ws[j])
      && (!a.distribute ==> ws == [Write(client, a.data)])
  {
    var a := Parse(codec, cfg.keepState, r.cache, d).answer.value;
    var ws := TcpRead(cfg, codec, r, client, Some(d)).writes;
    if a.distribute {
      var t := Others(r.tcp, client);
      assert ws == Deliver(t, a.data);
      if Distinct(r.tcp) {
        OthersDistinct(r.tcp, client);
      }
      forall c | c in r.tcp && c != client
        ensures Write(c, a.data) in ws
      {
        var i :| 0 <= i < |t| && t[i] == c;
        assert ws[i] in ws;
      }
      forall w | w in ws
        ensures w.to in r.tcp && w.to != client
      {
        var i :| 0 <= i < |ws| && ws[i] == w;
        assert t[i] in t;
      }
    }
  }

  /**
   * A message `parse` rejects is dropped: nothing is written and the client stays
   * connected. The cache is the one `parse` left, which is the old one unless a sync pack
   * failed part-way through its items.
   */
  lemma TcpReadDropsBadMessage(cfg: Config, codec: Codec, r: Relay, client: Conn, d: Bytes)
    requires Parse(codec, cfg.keepState, r.cache, d).answer.Err?
    ensures var p := Parse(codec, cfg.keepState, r.cache, d);
      && TcpRead(cfg, codec, r, client, Some(d)) == TcpStep(r.(cache := p.cache), [])
      && (p.answer.error != MalformedPack ==> TcpRead(cfg, codec, r, client, Some(d)) == TcpStep(r, []))
  {
    ParseCacheFrame(codec, cfg.keepState, r.cache, d);
  }

  /** A read with data never changes who is connected or which UDP peers are known. */
  lemma TcpReadKeepsMembers(cfg: Config, codec: Codec, r: Relay, client: Conn, d: Bytes)
    ensures TcpRead(cfg, codec, r, client, Some(d)).relay.tcp == r.tcp
    ensures TcpRead(cfg, codec, r, client, Some(d)).relay.udp == r.udp
  {
  }

  /**
   * The UDP sender is always a known peer afterwards, stamped with `now`, whatever the
   * datagram held; every other peer keeps its timestamp; and the answer never goes back
   * to the sender when distributed, and only to the sender otherwise.
   */
  lemma UdpReadFanOut(cfg: Config, codec: Codec, r: Relay, from: Addr, now: int, d: Bytes)
    ensures var s := UdpRead(cfg, codec, r, from, now, Some(d));
      && from in s.relay.udp && s.relay.udp[from] == now
      && s.relay.udp.Keys == r.udp.Keys + {from}
      && (forall x :: x in r.udp && x != from ==> s.relay.udp[x] == r.udp[x])
      && s.relay.tcp == r.tcp
      && var p := Parse(codec, cfg.keepState, r.cache, d);
         && s.relay.cache == p.cache
         && (p.answer.Err? ==> s.sends == {})
         && (p.answer.Ok? ==> forall m :: m in s.sends ==> m.data == p.answer.value.data)
         && (p.answer.Err? && p.answer.error != MalformedPack ==> s.relay.cache == r.cache)
         && (p.answer.Ok? && p.answer.value.distribute ==>
               forall x :: Send(x, p.answer.value.data) in s.sends <==> x in r.udp && x != from)
         && (p.answer.Ok? && !p.answer.value.distribute ==>
               s.sends == {Send(from, p.answer.value.data)})
  {
    ParseCacheFrame(codec, cfg.keepState, r.cache, d);
  }

  /**
   * A peer not heard from for more than the timeout is gone after a sweep and receives no
   * later broadcast from the next datagram; one heard from within the timeout still does.
   */
  lemma SweepThenBroadcast(cfg: Config, codec: Codec, r: Relay, now: int, from: Addr, later: int, d: Bytes, x: Addr)
    requires x in r.udp && x != from
    requires Parse(codec, cfg.keepState, r.cache, d).answer.Ok?
    requires Parse(codec, cfg.keepState, r.cache, d).answer.value.distribute
    ensures var a := Parse(codec, cfg.keepState, r.cache, d).answer.value;
      var swept := r.(udp := Sweep(r.udp, now, cfg.udpTimeout));
      var s := UdpRead(cfg, codec, swept, from, later, Some(d));
      Send(x, a.data) in s.sends <==> now - r.udp[x] <= cfg.udpTimeout
  {
  }

  /** Sweeping twice at the same instant removes nothing more. */
  lemma SweepIdempotent(peers: map<Addr, int>, now: int, timeout: int)
    ensures Sweep(Sweep(peers, now, timeout), now, timeout) == Sweep(peers, now, timeout)
  {
  }

  /** `tcp_connect` of a fresh client and `close_tcp` keep the relay well formed. */
  lemma MembershipKeepsValid(r: Relay, client: Conn)
    requires ValidRelay(r)
    ensures client !in r.tcp ==> ValidRelay(TcpConnect(r, client))
    ensures ValidRelay(CloseTcp(r, client))
  {
    DistinctAfterRemove(r.tcp, client);
  }

  /** `tcp_read` keeps the relay well formed. */
  lemma TcpReadKeepsValid(cfg: Config, codec: Codec, r: Relay, client: Conn, data: Option<Bytes>)
    requires ValidRelay(r)
    ensures ValidRelay(TcpRead(cfg, codec, r, client, data).relay)
  {
    if data.Some? {
      ParseKeepsValid(codec, cfg.keepState, r.cache, data.value);
    } else {
      DistinctAfterRemove(r.tcp, client);
    }
  }

  /** `udp_read` keeps the relay well formed. */
  lemma UdpReadKeepsValid(cfg: Config, codec: Codec, r: Relay, from: Addr, now: int, data: Option<Bytes>)
    requires ValidRelay(r)
    ensures ValidRelay(UdpRead(cfg, codec, r, from, now, data).relay)
  {
    if data.Some? {
      ParseKeepsValid(codec, cfg.keepState, r.cache, data.value);
    }
  }

  /** Every parse leaves a well-formed cache well formed, a partial sync save included. */
  lemma ParseKeepsValid(codec: Codec, keepState: bool, cache: Cache, d: Bytes)
    requires ValidCache(cache)
    ensures ValidCache(Parse(codec, keepState, cache, d).cache)
  {
    ParseCacheFrame(codec, keepState, cache, d);
    var p := Parse(codec, keepState, cache, d);
    if p.cache != cache {
      var (k, es) := SyncPrefix(codec.unpack(d).value).value;
      SaveStateKeepsValid(true, cache, k, es);
    }
  }

  lemma DistinctCons(x: Conn, t: seq<Conn>)
    requires x !in t && Distinct(t)
    ensures Distinct([x] + t)
  {
    forall i, j | 0 <= i < j < |[x] + t|
      ensures ([x] + t)[i] != ([x] + t)[j]
    {
      if i > 0 {
        assert ([x] + t)[i] == t[i - 1];
      }
      assert ([x] + t)[j] == t[j - 1];
    }
  }

  lemma {:induction false} DistinctAfterRemove(s: seq<Conn>, x: Conn)
    requires Distinct(s)
    ensures Distinct(RemoveFirst(s, x))
    decreases |s|
  {
    if |s| > 0 && s[0] != x {
      assert Distinct(s[1..]);
      DistinctAfterRemove(s[1..], x);
      var t := RemoveFirst(s[1..], x);
      RemoveFirstMembership(s[1..], x);
      assert s[0] !in s[1..];
      DistinctCons(s[0], t);
    }
  }

  /** After a `pos` pack for `v1P` at sequence 121, only the `pos` bucket holds anything. */
  lemma PosPackStored(codec: Codec, a: Addr, t: int, packBytes: Bytes)
    requires codec.unpack(packBytes) == Some(Arr([Str("pos"),
      Arr([Arr([Str("v1P"), Int(121), Arr([Int(1), Int(2), Int(1)])])])]))
    ensures UdpRead(Defaults, codec, InitialRelay, a, t, Some(packBytes)).relay.cache
      == InitialCache.(pos := Bucket(["v1P"], map["v1P" := Slot(121, Arr([Int(1), Int(2), Int(1)]))]))
  {
    var payload := Arr([Int(1), Int(2), Int(1)]);
    var e := Entry("v1P", 121, payload);
    var pack := Arr([Str("v1P"), Int(121), payload]);
    assert PackEntry(pack) == Some(e);
    assert [pack][1..] == [];
    assert ReadablePrefix([pack]) == [e];
    assert SaveAll(EmptyBucket, [e]) == Offer(EmptyBucket, e);
  }

  /**
   * The handshake scenario: after one peer's `pos` pack for `v1P` at sequence 121, a `hey`
   * from a newly connected client is answered to that client alone with a `ho` whose `pos`
   * entry holds exactly that slot and whose other kinds are empty.
   */
  lemma HandshakeScenario(codec: Codec, a: Addr, t: int, packBytes: Bytes, b: Conn, heyBytes: Bytes)
    requires codec.unpack(packBytes) == Some(Arr([Str("pos"),
      Arr([Arr([Str("v1P"), Int(121), Arr([Int(1), Int(2), Int(1)])])])]))
    requires codec.unpack(heyBytes) == Some(Arr([Str("hey")]))
    ensures var afterPack := UdpRead(Defaults, codec, InitialRelay, a, t, Some(packBytes)).relay;
      var joined := TcpConnect(afterPack, b);
      var step := TcpRead(Defaults, codec, joined, b, Some(heyBytes));
      step.writes == [Write(b, codec.pack(Arr([Str("ho"), Dict([
        (Str("pos"), Dict([(Str("v1P"), Arr([Int(121), Arr([Int(1), Int(2), Int(1)])]))])),
        (Str("rot"), Dict([])), (Str("scale"), Dict([])), (Str("state"), Dict([]))])])))]
  {
    PosPackStored(codec, a, t, packBytes);
    var payload := Arr([Int(1), Int(2), Int(1)]);
    var bucket := Bucket(["v1P"], map["v1P" := Slot(121, payload)]);
    assert OrderedPairs(bucket.order, bucket.slots) == [(Str("v1P"), Arr([Int(121), payload]))];
  }
}

=== FILE: state_cache.dfy ===
/**
 * The last-known-state cache (`last_state` in Server.py): for each sync kind, a map from
 * net id to the newest `(seq, payload)` seen. Python dictionaries remember insertion order
 * and `packb` writes them in that order, so each bucket keeps its ids in arrival order
 * beside the map itself.
 */
module StateCache {
  import opened Common
  import opened Wire

  /** The four sync kinds, each with its own bucket. */
  datatype Kind = Pos | Rot | Scale | State

  /** The tag that names a kind on the wire and in the snapshot. */
  function KindName(k: Kind): string
  {
    match k
    case Pos => "pos"
    case Rot => "rot"
    case Scale => "scale"
    case State => "state"
  }

  /** The kind a tag names, if any; the exact inverse of `KindName`. */
  function KindOf(tag: string): (r: Option<Kind>)
    ensures r.Some? ==> KindName(r.value) == tag
    ensures forall k :: KindName(k) == tag ==> r == Some(k)
  {
    if tag == "pos" then Some(Pos)
    else if tag == "rot" then Some(Rot)
    else if tag == "scale" then Some(Scale)
    else if tag == "state" then Some(State)
    else None
  }

  /** What is stored per net id: its sequence number and the payload that came with it. */
  datatype Slot = Slot(seqNo: int, payload: Value)

  /** One `(net_id, seq, payload)` item of a sync pack. */
  datatype Entry = Entry(id: string, seqNo: int, payload: Value)

  /** One kind's dictionary: its ids in insertion order, and the slot of each id. */
  datatype Bucket = Bucket(order: seq<string>, slots: map<string, Slot>)

  const EmptyBucket := Bucket([], map[])

  /** The order lists every stored id exactly once and nothing else. */
  ghost predicate ValidBucket(b: Bucket)
  {
    && Distinct(b.order)
    && forall id :: id in b.slots <==> id in b.order
  }

  /** The whole cache: one bucket per kind, the shape `last_state` is created with. */
  datatype Cache = Cache(pos: Bucket, rot: Bucket, scale: Bucket, state: Bucket)
  {
    /** The bucket that holds the net ids of kind `k`. */
    function Get(k: Kind): Bucket
    {
      match k
      case Pos => pos
      case Rot => rot
      case Scale => scale
      case State => state
    }

    /** This cache with the bucket of `k` replaced and every other bucket kept. */
    function With(k: Kind, b: Bucket): (r: Cache)
      ensures r.Get(k) == b
      ensures forall k' :: k' != k ==> r.Get(k') == Get(k')
    {
      match k
      case Pos => this.(pos := b)
      case Rot => this.(rot := b)
      case Scale => this.(scale := b)
      case State => this.(state := b)
    }
  }

  /** The cache the server starts with: all four kinds present, each with no net ids. */
  const InitialCache := Cache(EmptyBucket, EmptyBucket, EmptyBucket, EmptyBucket)

  ghost predicate ValidCache(c: Cache)
  {
    forall k :: ValidBucket(c.Get(k))
  }

  /** Every bucket of the initial cache is empty, and the cache is well formed. */
  lemma InitialCacheEmpty()
    ensures ValidCache(InitialCache)
    ensures forall k :: InitialCache.Get(k).slots == map[]
  {
  }

  /** Store `s` under `id`: an id already held keeps its place in the order, a new one goes last. */
  function Put(b: Bucket, id: string, s: Slot): (r: Bucket)
    ensures r.slots == b.slots[id := s]
    ensures id in b.slots ==> r.order == b.order
    ensures id !in b.slots ==> r.order == b.order + [id]
    ensures ValidBucket(b) ==> ValidBucket(r)
  {
    if id in b.slots then b.(slots := b.slots[id := s])
    else
      var r := Bucket(b.order + [id], b.slots[id := s]);
      assert ValidBucket(b) ==> id !in b.order;
      r
  }

  /**
   * One turn of the loop in `save_state`: the entry is stored when its id is new or the
   * stored sequence number is strictly smaller; otherwise the bucket is left as it was.
   */
  function Offer(b: Bucket, e: Entry): (r: Bucket)
    ensures e.id in r.slots
    ensures e.id in b.slots && e.seqNo <= b.slots[e.id].seqNo ==> r == b
    ensures (e.id !in b.slots || b.slots[e.id].seqNo < e.seqNo) ==> r.slots[e.id] == Slot(e.seqNo, e.payload)
    ensures forall id :: id != e.id ==> (id in r.slots <==> id in b.slots)
    ensures forall id :: id != e.id && id in b.slots ==> r.slots[id] == b.slots[id]
  {
    if e.id !in b.slots || b.slots[e.id].seqNo < e.seqNo then Put(b, e.id, Slot(e.seqNo, e.payload))
    else b
  }

  /** The loop `for pack in message[1]`, folding the entries into the bucket in pack order. */
  function SaveAll(b: Bucket, entries: seq<Entry>): Bucket
    decreases |entries|
  {
    if |entries| == 0 then b else SaveAll(Offer(b, entries[0]), entries[1..])
  }

  /**
   * `save_state`: with state retention on, fold the pack into the bucket of its kind;
   * with it off, do nothing at all.
   */
  function SaveState(keepState: bool, c: Cache, k: Kind, entries: seq<Entry>): (r: Cache)
    ensures !keepState ==> r == c
    ensures forall k' :: k' != k ==> r.Get(k') == c.Get(k')
  {
    if keepState then c.With(k, SaveAll(c.Get(k), entries)) else c
  }

  // ----- properties of the fold -----

  lemma {:induction false} SaveAllKeepsValid(b: Bucket, entries: seq<Entry>)
    requires ValidBucket(b)
    ensures ValidBucket(SaveAll(b, entries))
    decreases |entries|
  {
    if |entries| > 0 {
      SaveAllKeepsValid(Offer(b, entries[0]), entries[1..]);
    }
  }

  /** A save keeps the cache well formed. */
  lemma SaveStateKeepsValid(keepState: bool, c: Cache, k: Kind, entries: seq<Entry>)
    requires ValidCache(c)
    ensures ValidCache(SaveState(keepState, c, k, entries))
  {
    SaveAllKeepsValid(c.Get(k), entries);
  }

  /** Ids that the pack does not mention are neither added, removed nor changed. */
  lemma {:induction false} SaveAllFrame(b: Bucket, entries: seq<Entry>, id: string)
    requires forall i :: 0 <= i < |entries| ==> entries[i].id != id
    ensures id in SaveAll(b, entries).slots <==> id in b.slots
    ensures id in b.slots ==> SaveAll(b, entries).slots[id] == b.slots[id]
    decreases |entries|
  {
    if |entries| > 0 {
      SaveAllFrame(Offer(b, entries[0]), entries[1..], id);
    }
  }

  /** A stored sequence number never goes down. */
  lemma {:induction false} SaveAllMonotone(b: Bucket, entries: seq<Entry>, id: string)
    requires id in b.slots
    ensures id in SaveAll(b, entries).slots
    ensures b.slots[id].seqNo <= SaveAll(b, entries).slots[id].seqNo
    decreases |entries|
  {
    if |entries| > 0 {
      SaveAllMonotone(Offer(b, entries[0]), entries[1..], id);
    }
  }

  /** After the save, every id of the pack is stored with at least the sequence number it came with. */
  lemma {:induction false} SaveAllCovers(b: Bucket, entries: seq<Entry>, i: int)
    requires 0 <= i < |entries|
    ensures entries[i].id in SaveAll(b, entries).slots
    ensures entries[i].seqNo <= SaveAll(b, entries).slots[entries[i].id].seqNo
    decreases |entries|
  {
    if i == 0 {
      SaveAllMonotone(Offer(b, entries[0]), entries[1..], entries[0].id);
    } else {
      SaveAllCovers(Offer(b, entries[0]), entries[1..], i - 1);
    }
  }

  /**
   * The fold only appends to a bucket's id order: the ids held before keep their places,
   * and each id after them is one that was not held before and that the pack mentions.
   */
  lemma {:induction false} SaveAllKeepsOrder(b: Bucket, entries: seq<Entry>)
    ensures |b.order| <= |SaveAll(b, entries).order|
    ensures SaveAll(b, entries).order[..|b.order|] == b.order
    ensures forall i :: |b.order| <= i < |SaveAll(b, entries).order| ==>
      && SaveAll(b, entries).order[i] !in b.slots
      && exists j :: 0 <= j < |entries| && entries[j].id == SaveAll(b, entries).order[i]
    decreases |entries|
  {
    if |entries| > 0 {
      var e := entries[0];
      var b' := Offer(b, e);
      var r := SaveAll(b', entries[1..]);
      assert SaveAll(b, entries) == r;
      SaveAllKeepsOrder(b', entries[1..]);
      assert b'.order == b.order || b'.order == b.order + [e.id];
      assert b'.order[..|b.order|] == b.order;
      assert r.order[..|b.order|] == r.order[..|b'.order|][..|b.order|];
      forall i | |b.order| <= i < |r.order|
        ensures r.order[i] !in b.slots
        ensures exists j :: 0 <= j < |entries| && entries[j].id == r.order[i]
      {
        if i < |b'.order| {
          assert b'.order == b.order + [e.id] && e.id !in b.slots;
          assert r.order[i] == b'.order[i] == e.id;
          assert entries[0].id == r.order[i];
        } else {
          assert forall x :: x in b.slots ==> x in b'.slots;
          var j :| 0 <= j < |entries[1..]| && entries[1..][j].id == r.order[i];
          assert entries[j + 1].id == r.order[i];
        }
      }
    }
  }

  // ----- an order-free description of what ends up in a slot -----

  /** The slots a pack offers for `id`, in pack order. */
  function Incoming(entries: seq<Entry>, id: string): seq<Slot>
    decreases |entries|
  {
    if |entries| == 0 then []
    else
      var head := if entries[0].id == id then [Slot(entries[0].seqNo, entries[0].payload)] else [];
      head + Incoming(entries[1..], id)
  }

  /** The slot already held for `id`, if any. */
  function Stored(b: Bucket, id: string): seq<Slot>
  {
    if id in b.slots then [b.slots[id]] else []
  }

  /** `cands[j]` has the greatest sequence number and nothing before it ties with it. */
  ghost predicate FirstMaximum(cands: seq<Slot>, j: int)
  {
    && 0 <= j < |cands|
    && (forall m :: 0 <= m < |cands| ==> cands[m].seqNo <= cands[j].seqNo)
    && (forall m :: 0 <= m < j ==> cands[m].seqNo < cands[j].seqNo)
  }

  /**
   * The step of the fold for an entry of `id`: if `W` is what `Offer` keeps out of the held
   * slots `O` and the entry's slot `E`, the first maximum of `[W] + R` is also the first
   * maximum of `O + [E] + R`.
   */
  lemma FirstMaximumStep(O: seq<Slot>, E: Slot, R: seq<Slot>, W: Slot, j': int) returns (j: int)
    requires |O| <= 1
    requires W == if O == [] || O[0].seqNo < E.seqNo then E else O[0]
    requires FirstMaximum([W] + R, j')
    ensures FirstMaximum(O + [E] + R, j)
    ensures (O + [E] + R)[j] == ([W] + R)[j']
  {
    var C := O + [E] + R;
    var C' := [W] + R;
    if j' == 0 {
      j := if O == [] || O[0].seqNo < E.seqNo then |O| else 0;
      assert C[j] == W;
      forall m | 0 <= m < |C|
        ensures C[m].seqNo <= C[j].seqNo
      {
        if m > |O| {
          assert C[m] == C'[m - |O|];
        }
      }
    } else {
      j := j' + |O|;
      assert C[j] == C'[j'];
      assert C'[0] == W;
      forall m | 0 <= m < |C|
        ensures C[m].seqNo <= C[j].seqNo
        ensures m < j ==> C[m].seqNo < C[j].seqNo
      {
        if m > |O| {
          assert C[m] == C'[m - |O|];
        }
      }
    }
  }

  /**
   * Last writer wins by sequence number, not by arrival: among the slot already held and
   * the pack's slots for `id` in pack order, the save keeps the first one with the greatest
   * sequence number (its index `j` is returned), and `id` is stored exactly when there was
   * at least one candidate.
   */
  lemma {:induction false} KeptCandidate(b: Bucket, entries: seq<Entry>, id: string) returns (j: int)
    ensures id in SaveAll(b, entries).slots <==> |Stored(b, id) + Incoming(entries, id)| > 0
    ensures id in SaveAll(b, entries).slots ==>
      FirstMaximum(Stored(b, id) + Incoming(entries, id), j)
        && SaveAll(b, entries).slots[id] == (Stored(b, id) + Incoming(entries, id))[j]
    decreases |entries|
  {
    var C := Stored(b, id) + Incoming(entries, id);
    if |entries| == 0 {
      j := 0;
      assert C == Stored(b, id);
    } else {
      var e := entries[0];
      var rest := entries[1..];
      var b' := Offer(b, e);
      var r := SaveAll(b', rest);
      assert SaveAll(b, entries) == r;
      var j' := KeptCandidate(b', rest, id);
      var R := Incoming(rest, id);
      var E := Slot(e.seqNo, e.payload);
      assert Incoming(entries, id) == (if e.id == id then [E] else []) + R;
      if e.id != id {
        assert Stored(b', id) == Stored(b, id);
        assert C == Stored(b', id) + R;
        j := j';
      } else {
        var O := Stored(b, id);
        var W := b'.slots[id];
        assert C == O + [E] + R;
        assert Stored(b', id) == [W];
        if id in r.slots {
          j := FirstMaximumStep(O, E, R, W, j');
        }
      }
    }
  }

  /**
   * Two updates of the same net id with different sequence numbers leave the same slot
   * whichever arrives first.
   */
  lemma ArrivalOrderIrrelevant(b: Bucket, e1: Entry, e2: Entry)
    requires e1.id == e2.id && e1.seqNo != e2.seqNo
    ensures Offer(Offer(b, e1), e2).slots[e1.id] == Offer(Offer(b, e2), e1).slots[e1.id]
  {
  }

  /**
   * When at least one of two updates of a net id beats the slot held for it, the slot left
   * afterwards is the update with the greater sequence number.
   */
  lemma GreaterSeqWins(b: Bucket, e1: Entry, e2: Entry)
    requires e1.id == e2.id && e1.seqNo != e2.seqNo
    requires e1.id !in b.slots || b.slots[e1.id].seqNo < e1.seqNo || b.slots[e1.id].seqNo < e2.seqNo
    ensures Offer(Offer(b, e1), e2).slots[e1.id]
      == if e1.seqNo < e2.seqNo then Slot(e2.seqNo, e2.payload) else Slot(e1.seqNo, e1.payload)
  {
  }

  // ----- the snapshot sent in a Ho reply -----

  /** `(seq, payload)` as packed: a two-element array. */
  function SlotValue(s: Slot): Value
  {
    Arr([Int(s.seqNo), s.payload])
  }

  /** The pairs of a bucket's dictionary, in insertion order. */
  function OrderedPairs(order: seq<string>, slots: map<string, Slot>): seq<(Value, Value)>
    decreases |order|
  {
    if |order| == 0 then []
    else
      var id := order[|order| - 1];
      OrderedPairs(order[..|order| - 1], slots)
        + (if id in slots then [(Str(id), SlotValue(slots[id]))] else [])
  }

  function BucketValue(b: Bucket): Value
  {
    Dict(OrderedPairs(b.order, b.slots))
  }

  /** `last_state` as `packb` sees it: the four kinds in their initial order. */
  function Snapshot(c: Cache): Value
  {
    Dict([(Str("pos"), BucketValue(c.pos)), (Str("rot"), BucketValue(c.rot)),
          (Str("scale"), BucketValue(c.scale)), (Str("state"), BucketValue(c.state))])
  }

  lemma {:induction false} OrderedPairsLookup(order: seq<string>, slots: map<string, Slot>, id: string)
    ensures Lookup(OrderedPairs(order, slots), Str(id))
      == if id in order && id in slots then Some(SlotValue(slots[id])) else None
    decreases |order|
  {
    if |order| > 0 {
      var last := order[|order| - 1];
      var init := order[..|order| - 1];
      var P := OrderedPairs(init, slots);
      OrderedPairsLookup(init, slots, id);
      assert order == init + [last];
      assert id in order <==> id in init || id == last;
      if last in slots {
        var Q := P + [(Str(last), SlotValue(slots[last]))];
        assert Q[..|Q| - 1] == P;
      } else {
        assert P + [] == P;
      }
    }
  }

  /**
   * A receiver of the snapshot finds every kind under its name, and under each net id
   * exactly the `(seq, payload)` the cache holds for it, and nothing for ids it lacks.
   */
  lemma SnapshotShowsCache(c: Cache, k: Kind, id: string)
    requires ValidCache(c)
    ensures Snapshot(c).Dict?
    ensures Lookup(Snapshot(c).pairs, Str(KindName(k))) == Some(BucketValue(c.Get(k)))
    ensures Lookup(BucketValue(c.Get(k)).pairs, Str(id))
      == if id in c.Get(k).slots then Some(SlotValue(c.Get(k).slots[id])) else None
  {
    assert ValidBucket(c.Get(k));
    OrderedPairsLookup(c.Get(k).order, c.Get(k).slots, id);
    var P := Snapshot(c).pairs;
    assert P[..3] == [P[0], P[1], P[2]];
    assert [P[0], P[1], P[2]][..2] == [P[0], P[1]];
    assert [P[0], P[1]][..1] == [P[0]];
    assert [P[0]][..0] == [];
    match k
    case Pos =>
      var key := Str("pos");
      assert Lookup(P, key) == Lookup(P[..3], key);
      assert Lookup([P[0], P[1], P[2]], key) == Lookup([P[0], P[1]], key);
      assert Lookup([P[0], P[1]], key) == Lookup([P[0]], key);
    case Rot =>
      var key := Str("rot");
      assert Lookup(P, key) == Lookup(P[..3], key);
      assert Lookup([P[0], P[1], P[2]], key) == Lookup([P[0], P[1]], key);
    case Scale =>
    case State =>
  }
}

=== FILE: wire.dfy ===
/**
 * The wire level of the relay: raw byte buffers, the decoded MessagePack value tree, and
 * the codec that converts between them. The codec is a foreign library, so it is carried
 * as a pair of total function values that the rest of the model never looks inside.
 */
module Wire {
  import opened Common

  newtype byte = x: int | 0 <= x < 256

  /** A read buffer or datagram as it arrives from, or leaves for, the network. */
  type Bytes = seq<byte>

  /**
   * A decoded MessagePack value as the server sees it (lists for arrays, `str` for
   * strings). Maps keep the order of their pairs; floats are modelled as reals. An
   * extension value keeps its type code and raw data; timestamps are the extension
   * with code -1.
   */
  datatype Value =
    | Nil
    | Bool(b: bool)
    | Int(i: int)
    | Float(r: real)
    | Str(s: string)
    | Bin(data: Bytes)
    | Arr(items: seq<Value>)
    | Dict(pairs: seq<(Value, Value)>)
    | Ext(code: int, data: Bytes)

  /** `packb` and `unpackb`; an undecodable buffer makes `unpack` answer `None`. */
  datatype Codec = Codec(pack: Value -> Bytes, unpack: Bytes -> Option<Value>)

  /**
   * What a receiver reads under `key` in a decoded map: as for a dictionary built
   * pair by pair, the last pair with that key wins.
   */
  function Lookup(pairs: seq<(Value, Value)>, key: Value): Option<Value>
    decreases |pairs|
  {
    if |pairs| == 0 then None
    else if pairs[|pairs| - 1].0 == key then Some(pairs[|pairs| - 1].1)
    else Lookup(pairs[..|pairs| - 1], key)
  }
}
